=== FILE: README.md ===
# UAA command line: target and context selection

A Dafny model of the part of the UAA command-line client (`lib/cli/common.rb`) that
chooses the server to talk to and the session to use:

- `normalize_url` turns a typed address into a canonical URL. It strips surrounding
  whitespace and trailing slashes, rejects embedded whitespace, adds a default scheme
  to a scheme-less address and lower-cases the host.
- `bad_uaa_url` checks that a server can be reached.
- The `target` command picks a target. The target can be given as an index into the
  known targets, as an address with an explicit scheme, or as a bare address. A bare
  address is tried as `https` first and then as `http`, and known targets and `--force`
  skip the network.
- `update_target_info` merges the server's `prompts` and `token_endpoint` into the
  current target.
- The `context` command switches the current context by name or by position and
  toggles its `trace` flag.
- `auth_header` builds the Authorization header from the current context's token.

The configuration behind `Config` is an immutable record (`ConfigStore.Config`). It
holds the targets in insertion order, a current target, the attributes of each target,
and each target's contexts in insertion order with a current one. The invariant it
keeps is `ConfigStore.Valid`. `Misc.server`, the one network call, is a parameter
`probe: string -> Reply`.

Modules:

- `Wrappers`: `Option` and `Result`.
- `Text`: Ruby's `strip`, the `\s` class, trailing-slash removal and ASCII `downcase`.
- `Decimal`: the index test `s.to_i.to_s == s`.
- `Url`: `normalize_url`.
- `ConfigStore`: the configuration record.
- `TargetCmd`: `bad_uaa_url`, the `target` command and `update_target_info`.
- `ContextCmd`: the `context` command.
- `Auth`: `auth_header`.
- `Scenarios`: worked examples on concrete inputs.

An empty address is not a no-op: `if uaa_url` (lib/cli/common.rb:120) is true for the
empty string, so it reaches `normalize_url`. An empty or all-whitespace address has no
scheme, and with a default scheme it becomes the bare `scheme://` (`Url.BlankWithDefault`).
So `https://` is only its https candidate. Unless `--force` is given or a candidate is
already a known target, that candidate is probed. The command can then settle on `http://`
or fail with the http error, as for any other address without a scheme.

## Model

| member | source | states |
|---|---|---|
| Text.HasSpace | lib/cli/common.rb:100 | the test `url =~ /\s/`: some character is one of the six whitespace characters |
| Text.Lower | lib/cli/common.rb:106 | `downcase` keeps the length, leaves every character outside `A`-`Z` in place and moves each of `A`-`Z` 32 code points up to its lower-case letter |
| Text.Strip | lib/cli/common.rb:99 | the result neither starts nor ends with whitespace, and it is empty exactly when the string is all whitespace |
| Text.StripPadded | lib/cli/common.rb:99 | `strip` removes exactly the whitespace around a string that starts and ends with other characters, however much of it there is |
| Text.TrimSlashes | lib/cli/common.rb:99 | the result does not end in `/` |
| Text.TrimSlashesAppend | lib/cli/common.rb:99 | any number of extra trailing slashes leaves the trimmed result unchanged |
| Text.LowerIdempotent | lib/cli/common.rb:106 | lower-casing twice is lower-casing once |
| Text.LowerKeepsShape | lib/cli/common.rb:106 | lower-casing adds no whitespace and keeps a final `/` exactly where it was |
| Decimal.DecimalString | lib/cli/common.rb:121 | `to_s` of an integer is non-empty and starts with `-` exactly for negative integers |
| Decimal.ParseDecimal | lib/cli/common.rb:121 | `to_i` of an optional minus and digits; a negative value comes only from a leading minus |
| Decimal.IsIndexForm | lib/cli/common.rb:121 | the test `s.to_i.to_s == s`; a string passing it starts with a digit or a minus |
| Decimal.ParseDecimalString | lib/cli/common.rb:121 | `to_i` of the rendering of any integer gives that integer back |
| Decimal.IndexFormExact | lib/cli/common.rb:121 | `s.to_i.to_s == s` holds exactly when `s` is the rendering of some integer |
| Decimal.IndexFormValue | lib/cli/common.rb:121-122 | every integer's rendering passes the index test and denotes that integer |
| Url.SchemeOf | lib/cli/common.rb:101 | an address has a scheme exactly when it starts with `http://` or `https://`, case-sensitively |
| Url.Parse | lib/cli/common.rb:105 | the host and the rest put back together give the URL; the host has no `/ : ? #`, and the rest is empty or starts with one |
| Url.Canonical | lib/cli/common.rb:105-107 | the URL with its host lower-cased equals the input up to case and has the same length |
| Url.Cleaned | lib/cli/common.rb:99 | the address after `strip` and slash removal is a prefix of the stripped address and does not end in `/` |
| Url.Qualify | lib/cli/common.rb:100-107 | the whitespace error iff the trimmed address has whitespace; nil iff it has no scheme and there is no default; otherwise an `http(s)` URL without whitespace that equals the address, with the default scheme in front when it had none, up to case |
| Url.Normalize | lib/cli/common.rb:98-108 | the same as `Url.Qualify`, stated about the raw address after `strip` and slash removal |
| Url.CanonicalShape | lib/cli/common.rb:105-107 | the canonical form keeps its scheme and gains no whitespace |
| Url.NormalizeParsed | lib/cli/common.rb:105-107 | an already trimmed `scheme://host rest` normalises to the same URL with only the host lower-cased |
| Url.HostCaseIrrelevant | lib/cli/common.rb:106 | two spellings of a host that differ only in case give the same target |
| Url.NormalizeIgnoresPadding | lib/cli/common.rb:99 | outer whitespace and any number of trailing slashes do not change the result |
| Url.DefaultIgnored | lib/cli/common.rb:101-104 | with an explicit scheme the default scheme makes no difference |
| Url.DefaultPrepends | lib/cli/common.rb:101-104 | for a non-blank address without a scheme, the default scheme acts exactly like typing `scheme://` in front; a blank address is the exception (`Url.BlankWithDefault`) |
| Url.QualifyIdempotent | lib/cli/common.rb:100-107 | qualifying the result of a successful qualification gives it back unchanged, whatever the default |
| Url.NormalizeIdempotent | lib/cli/common.rb:98-108 | a URL produced from a non-blank address normalises to itself, whatever the default scheme |
| Url.BlankWithDefault | lib/cli/common.rb:98-108 | an empty or all-whitespace address with a default scheme gives the bare `scheme://`, which is not a fixed point: it normalises to nil |
| ConfigStore.Pick | lib/cli/common.rb:122 | a position resolves iff it is within the list, a name iff it is listed; the result is always a listed key |
| ConfigStore.PickPositionOrName | lib/cli/common.rb:169-170 | in a list without repeats a key and its position denote the same entry, and no other position denotes it |
| ConfigStore.Known | lib/cli/common.rb:124-126 | `Config.target?(url)`: the URL is a stored target |
| ConfigStore.TargetAt | lib/cli/common.rb:122 | `Config.target?(i)`: the key at position `i` of the targets, present iff `i` is within range |
| ConfigStore.TargetValue | lib/cli/common.rb:69 | `Config.target_value(key)`: nil without a current target or without that attribute |
| ConfigStore.CurrentContext | lib/cli/common.rb:172 | `Config.context`: when present, one of the current target's contexts |
| ConfigStore.SessionValue | lib/cli/common.rb:25 | `Config.value(key)`: nil without a current context |
| ConfigStore.SetTarget | lib/cli/common.rb:133 | the target becomes current and is created empty if new; existing targets and their positions are unchanged and the invariant holds |
| ConfigStore.SetTargetIdempotent | lib/cli/common.rb:133 | setting the same target twice is setting it once |
| ConfigStore.SetTargetAttr | lib/cli/common.rb:71-72 | sets one attribute of the current target; every other attribute and every other target are unchanged |
| ConfigStore.ValidContext | lib/cli/common.rb:170 | a name denotes a context exactly when there is a current target that has a context of that name; a position denotes the context at that place in the insertion order when it is in range; nothing is found without a current target |
| ConfigStore.SelectContext | lib/cli/common.rb:170 | the named context becomes current; nothing else changes |
| ConfigStore.SetSession | lib/cli/common.rb:171 | replaces the current context's attributes; targets, current target and context, the current target's attributes and the other contexts are unchanged, and without a current context nothing changes |
| ConfigStore.AddSessionAttr | lib/cli/common.rb:171 | sets one attribute of the current context and leaves its other attributes; nothing outside the current context's attributes changes, and without a current context nothing changes |
| ConfigStore.DeleteSessionAttr | lib/cli/common.rb:171 | removes one attribute of the current context and leaves its other attributes; nothing outside the current context's attributes changes, and without a current context nothing changes |
| TargetCmd.Message | lib/cli/common.rb:100-130 | the texts reported for the three failures: "invalid target index", "invalid whitespace in target url", `failed to access <url>: <reason>` |
| TargetCmd.Access | lib/cli/common.rb:110-115 | success with the server's hash iff the server answers; otherwise the failure names the URL and the server's message |
| TargetCmd.Candidate | lib/cli/common.rb:125-130 | the candidate is the normalisation of the address under the given default scheme |
| TargetCmd.Explicit | lib/cli/common.rb:123-124 | an address with a scheme fails iff it is neither forced nor known and the probe fails; the hash is empty when forced or known and the probe's answer otherwise |
| TargetCmd.Fallback | lib/cli/common.rb:125-132 | a bare address fails iff neither candidate is known, there is no force and both probes fail; the error carries the http failure; http is chosen only when https is not known, and either http is known or the https probe failed without `--force` |
| TargetCmd.Resolve | lib/cli/common.rb:119-132 | an address result is an `http(s)` URL without whitespace; the hash is empty or the chosen URL's probe answer; an unreachable error only without force for an unknown URL whose probe failed; the index error iff the input is index-form; for a non-index input, the whitespace error iff the trimmed address has whitespace |
| TargetCmd.ProbedUrls | lib/cli/common.rb:121-130 | the URLs handed to `Misc.server`: at most two, none under `--force`, none already a known target, none for an address rejected for whitespace, and a second only after the first failed |
| TargetCmd.ForceNeverProbes | lib/cli/common.rb:124-128 | with `--force` no server is asked |
| TargetCmd.ProbeOnlyWhereAsked | lib/cli/common.rb:124-130 | two probes that agree on the URLs asked give the same outcome and the same questions |
| TargetCmd.ResolveIndex | lib/cli/common.rb:121-122 | an index selects the target at that position or fails with "invalid target index", and probes nothing |
| TargetCmd.ResolveExplicit | lib/cli/common.rb:123-124 | with an explicit scheme: probed only when neither forced nor known, the hash is that probe's answer (empty when unprobed), and the failure message is `failed to access <url>: <reason>` |
| TargetCmd.CandidatesAgree | lib/cli/common.rb:125-130 | the https and http candidates differ only in their scheme |
| TargetCmd.ResolveFallback | lib/cli/common.rb:125-132 | a bare address tries, in order: known https, known http, https under force, the first of https and http to answer; the probe is asked about nothing when a candidate is known or under force, about https alone when it answers, and otherwise about https and then http |
| TargetCmd.ResolvedIsCanonical | lib/cli/common.rb:123-133 | every URL chosen from a non-blank address normalises to itself |
| TargetCmd.UpdateTargetInfo | lib/cli/common.rb:68-74 | with cached prompts and no hash: a no-op; it fails only when it must ask the server and the server fails; a given hash, or the server's answer when there is none and nothing is cached, is merged as `MergeInfo` says and returned; only the current target's attributes change |
| TargetCmd.MergeInfo | lib/cli/common.rb:71-72 | `prompts` is always replaced, `token_endpoint` only by a truthy value, and no other attribute or target changes |
| TargetCmd.UpdateThenCached | lib/cli/common.rb:69 | after merging a hash with prompts, a call without a hash asks no server and changes nothing |
| TargetCmd.SetTargetAttrAgain | lib/cli/common.rb:71-72 | setting an attribute to the value it has changes nothing |
| TargetCmd.UpdateIdempotent | lib/cli/common.rb:71-72 | merging the same hash twice is merging it once |
| TargetCmd.Commit | lib/cli/common.rb:133-134 | the chosen URL becomes current and the other targets and positions are unchanged; the probe's hash is merged iff it has truthy prompts |
| TargetCmd.TargetCommand | lib/cli/common.rb:118-135 | without an address nothing changes; a failure leaves the configuration as it was; otherwise the resolved target is committed as `TargetCmd.Commit` says, becoming current and keeping every other target |
| ContextCmd.ParseRef | lib/cli/common.rb:169 | a name becomes a position iff it is index-form, and the position renders back to the name |
| ContextCmd.ParseRefRendering | lib/cli/common.rb:169 | the rendering of any integer reads back as that position |
| ContextCmd.Chosen | lib/cli/common.rb:170 | no name chooses nothing; an index-form name chooses the context at that position of the current target, if in range; any other name chooses itself iff the current target has a context of that name |
| ContextCmd.SwitchContext | lib/cli/common.rb:170 | a valid name or position makes that context current; only the current target's current context changes, its attributes, context order and contexts staying as they were; anything else changes nothing; in particular a name that is not an index and not a context of the current target keeps the current context |
| ContextCmd.ContextCommand | lib/cli/common.rb:168-171 | the current context is the chosen one when valid and is otherwise unchanged, so an unlisted non-index name keeps it; `--trace` sets the flag, `--no-trace` removes it, no option leaves it alone; other attributes are kept; other targets, the current target's attributes and its other contexts are unchanged |
| ContextCmd.InvalidNameIgnored | lib/cli/common.rb:170 | an invalid or missing name without a trace option changes nothing |
| ContextCmd.PositionOrName | lib/cli/common.rb:169-170 | a context can be chosen by position or by name, with the same effect, unless its name is itself index-form |
| ContextCmd.IndexFormMeansPosition | lib/cli/common.rb:169-170 | an index-form name always means a position, never a context that merely has that name |
| Auth.AuthHeader | lib/cli/common.rb:24-29 | success iff both `token_type` and `access_token` are truthy; otherwise the "Need an access token" error; the header is the type, one space, the token |
| Auth.AuthHeaderSplits | lib/cli/common.rb:28 | when the token type has no space, splitting the header at its first space gives back the type and the token |
| Scenarios.PlainHost | lib/cli/common.rb:123-130 | a bare host has no scheme, and its candidate is the scheme prefix plus the lower-cased host |
| Scenarios.FreshHostPrefersHttps | lib/cli/common.rb:125-130 | `example.com` on an empty configuration with only https reachable: https is chosen after one probe |
| Scenarios.FreshHostCommitted | lib/cli/common.rb:133 | after that the current target is `https://example.com`, which has no context |
| Scenarios.KnownHostNotProbed | lib/cli/common.rb:125-126 | a bare address whose https form is known is chosen without asking the server |
| Scenarios.KnownHostSelected | lib/cli/common.rb:133 | the command then only makes that target current |
| Scenarios.IndexIntoEmpty | lib/cli/common.rb:121-122 | `target 0` on an empty configuration reports "invalid target index" and changes nothing |
| Scenarios.SpaceInsideAddress | lib/cli/common.rb:100 | `bad host` is rejected as whitespace and changes nothing |
| Scenarios.TrailingSlashesDropped | lib/cli/common.rb:99 | `https://host///` and `https://host` are the same target |
| Scenarios.HostLowerCased | lib/cli/common.rb:106 | `https://ExAmple.COM/Path` becomes `https://example.com/Path` |
| Scenarios.SwitchToBob | lib/cli/common.rb:170 | with contexts `alice` (current) and `bob`, `context bob` makes `bob` current |

## Left out

- Output is not modelled: `say`, `gripe`, `complain`, `handle_request`, the messages at lines 136-138 and 172, the `targets` and `contexts` listings and `config_pp`. Only the error texts are kept, in `TargetCmd.Message` and `Auth.NeedToken`.
- Interactive input is not modelled: `username`, `userpwd`, `clientname`, `clientsecret`, `verified_pwd` and `askd` read from a terminal.
- `version`, `help`, option and topic registration are declarations for the command framework and have no logic to model.
- `Misc.server` is an arbitrary function parameter. Network errors, timeouts and the JSON decoding of its answer are outside the model, and a failed call is the `Refused` reply carrying the exception's message.
- `Config` (cli/config) is not part of this model. Its behaviour is inferred from the calls in lib/cli/common.rb: loading and saving the configuration file, and its YAML form, are left out.
- ConfigStore.Pick: a negative position is treated as out of range. The code passes any integer to `Config.target?` and `Config.valid_context`, whose handling of negative positions is not visible.
- ConfigStore.ValidContext: without a current target it finds nothing, so `context <name>` then changes nothing. What `Config.valid_context` does in that case is not visible in lib/cli/common.rb.
- ContextCmd.ContextCommand: with no current context, setting or deleting `trace` is modelled as a no-op. What `Config.add_opts` and `Config.delete_attr` do in that case is not visible.
- TargetCmd.UpdateTargetInfo: requires a current target. In lib/cli/common.rb it is only called after `Config.target = url` has set one.
- Url.Parse: models only what URI parsing contributes to the result: the scheme, the host (which ends at the first `/`, `:`, `?` or `#`) and the rest, which is kept verbatim. URI syntax errors, user information and the re-serialisation of ports are not modelled. For the bare `https://` of a blank address the model takes the host to be empty.
- Text.Lower: lower-cases ASCII letters only. Ruby's `downcase` also maps non-ASCII letters.
- Text.IsSpace: covers the six ASCII characters of Ruby's `\s` (space, tab, line feed, vertical tab, form feed, carriage return). `strip` additionally removes NUL characters at the end of a string, which the model does not.
- Text.TrimSlashes: models `gsub(/\/*$/, "")` as the removal of every trailing slash. Ruby's `$` also matches before an embedded line break, but such an address is then rejected as whitespace anyway, so the outcome is the same.
- Url.NormalizeIdempotent: requires a non-blank address. A blank address with a default scheme gives `scheme://`, which is not a fixed point (`Url.BlankWithDefault`).
- The `to_sym` at the end of `normalize_url` is left out. Targets are keyed by the URL string.

=== FILE: auth.dfy ===
/** `auth_header` of lib/cli/common.rb: the HTTP Authorization header built from the
    current context's token. */
module Auth {
  import opened Wrappers
  import opened ConfigStore

  const NeedToken := "Need an access token to complete this command. Please login."

  /** `"#{token_type} #{access_token}"`, or the error raised when either is missing. */
  function AuthHeader(c: Config): (r: Result<string, string>)
    requires Valid(c)
    ensures r.Success? <==> Truthy(SessionValue(c, "token_type")) && Truthy(SessionValue(c, "access_token"))
    ensures r.Failure? ==> r.error == NeedToken
    ensures r.Success? ==>
      var kind := Show(SessionValue(c, "token_type"));
      && |r.value| == |kind| + 1 + |Show(SessionValue(c, "access_token"))|
      && r.value[..|kind|] == kind && r.value[|kind|] == ' '
      && r.value[|kind| + 1..] == Show(SessionValue(c, "access_token"))
  {
    var kind := SessionValue(c, "token_type");
    var token := SessionValue(c, "access_token");
    if Truthy(kind) && Truthy(token) then Success(Show(kind) + " " + Show(token))
    else Failure(NeedToken)
  }

  /** When the token type has no space in it, splitting the header at its first space
      gives back the token type and the access token. */
  lemma AuthHeaderSplits(c: Config)
    requires Valid(c) && AuthHeader(c).Success?
    requires ' ' !in Show(SessionValue(c, "token_type"))
    ensures var h := AuthHeader(c).value;
      var n := |Show(SessionValue(c, "token_type"))|;
      && (forall j :: 0 <= j < n ==> h[j] != ' ') && h[n] == ' '
      && h[..n] == Show(SessionValue(c, "token_type"))
      && h[n + 1..] == Show(SessionValue(c, "access_token"))
  {
    var h := AuthHeader(c).value;
    var kind := Show(SessionValue(c, "token_type"));
    forall j | 0 <= j < |kind|
      ensures h[j] != ' '
    {
      assert h[j] == h[..|kind|][j] == kind[j];
    }
  }
}

=== FILE: config.dfy ===
/**
 The configuration record the command line reads and writes through `Config`
 (cli/config, which is not part of this model). Only what the calls in
 lib/cli/common.rb imply is modelled: an insertion-ordered collection of targets,
 each with attributes and named contexts, a current target, and per target a
 current context.
 */
module ConfigStore {
  import opened Wrappers

  /** An attribute value: nil, a boolean, a string, or any other object (such as the
      prompts hash), which the model keeps only as its `to_s` rendering. */
  datatype Value = Nil | Flag(flag: bool) | Str(text: string) | Other(shown: string)

  /** A Ruby hash with symbol keys. */
  type Hash = map<string, Value>

  /** `h[key]`: nil for a missing key. */
  function Get(h: Hash, key: string): Value {
    if key in h then h[key] else Nil
  }

  /** Ruby truthiness: everything except nil and false. */
  predicate Truthy(v: Value) {
    v != Nil && v != Flag(false)
  }

  /** Ruby's `to_s`, as string interpolation uses it. */
  function Show(v: Value): string {
    match v
    case Nil => ""
    case Flag(b) => if b then "true" else "false"
    case Str(s) => s
    case Other(s) => s
  }

  /** A target or context named by its key or by its position in insertion order. */
  datatype Ref = Index(index: int) | Name(name: string)

  /** Resolves a reference against an insertion-ordered list of keys: the one helper
      behind both `Config.target?(i)` and `Config.valid_context(ctx)`. */
  function Pick(order: seq<string>, r: Ref): (k: Option<string>)
    ensures k.Some? ==> k.value in order
    ensures r.Name? ==> (k.Some? <==> r.name in order)
    ensures r.Index? ==> (k.Some? <==> 0 <= r.index < |order|)
  {
    match r
    case Index(i) => if 0 <= i < |order| then Some(order[i]) else None
    case Name(n) => if n in order then Some(n) else None
  }

  predicate Distinct(s: seq<string>) {
    forall i, j :: 0 <= i < j < |s| ==> s[i] != s[j]
  }

  /** In a list without repeats, a key and its position name the same entry. */
  lemma PickPositionOrName(order: seq<string>, i: int)
    requires Distinct(order) && 0 <= i < |order|
    ensures Pick(order, Index(i)) == Pick(order, Name(order[i])) == Some(order[i])
    ensures forall j :: 0 <= j < |order| && Pick(order, Index(j)) == Some(order[i]) ==> j == i
  {
  }

  /** One target: its attributes (`prompts`, `token_endpoint`, ...), its contexts in
      insertion order with their attributes, and which of them is current. */
  datatype Target = Target(attrs: Hash, contextOrder: seq<string>, contexts: map<string, Hash>,
                           context: Option<string>)

  /** The whole configuration: targets in insertion order and the current one. */
  datatype Config = Config(order: seq<string>, targets: map<string, Target>, current: Option<string>)

  const EmptyTarget := Target(map[], [], map[], None)

  ghost predicate ValidTarget(t: Target) {
    && Distinct(t.contextOrder)
    && (forall k :: k in t.contextOrder <==> k in t.contexts)
    && (t.context.Some? ==> t.context.value in t.contexts)
  }

  /** Every key listed once, every listed key stored, the current target and every
      current context among the stored ones. */
  ghost predicate Valid(c: Config) {
    && Distinct(c.order)
    && (forall k :: k in c.order <==> k in c.targets)
    && (c.current.Some? ==> c.current.value in c.targets)
    && (forall k :: k in c.targets ==> ValidTarget(c.targets[k]))
  }

  /** `Config.target?(url)`. */
  predicate Known(c: Config, url: string) {
    url in c.targets
  }

  /** `Config.target?(i)` for an integer `i`. */
  function TargetAt(c: Config, i: int): (u: Option<string>)
    ensures u.Some? <==> 0 <= i < |c.order|
    ensures u.Some? ==> u.value == c.order[i]
  {
    Pick(c.order, Index(i))
  }

  /** `Config.target = url`: the target becomes current, created empty if it is new. */
  function SetTarget(c: Config, url: string): (r: Config)
    requires Valid(c)
    ensures Valid(r)
    ensures r.current == Some(url) && Known(r, url)
    ensures r.targets.Keys == c.targets.Keys + {url}
    ensures forall k :: k in c.targets ==> r.targets[k] == c.targets[k]
    ensures !Known(c, url) ==> r.targets[url] == EmptyTarget
    ensures forall i :: 0 <= i < |c.order| ==> TargetAt(r, i) == TargetAt(c, i)
  {
    if url in c.targets then c.(current := Some(url))
    else
      var order := c.order + [url];
      assert forall k :: k in order <==> k in c.order || k == url;
      Config(order, c.targets[url := EmptyTarget], Some(url))
  }

  /** Selecting the same target twice is selecting it once. */
  lemma SetTargetIdempotent(c: Config, url: string)
    requires Valid(c)
    ensures SetTarget(SetTarget(c, url), url) == SetTarget(c, url)
  {
  }

  /** `Config.target_value(key)`. */
  function TargetValue(c: Config, key: string): (v: Value)
    requires Valid(c)
    ensures c.current.None? ==> v == Nil
    ensures c.current.Some? && key !in c.targets[c.current.value].attrs ==> v == Nil
  {
    if c.current.Some? then Get(c.targets[c.current.value].attrs, key) else Nil
  }

  /** `Config.target_opts(key => v)`: sets one attribute of the current target. */
  function SetTargetAttr(c: Config, key: string, v: Value): (r: Config)
    requires Valid(c) && c.current.Some?
    ensures Valid(r)
    ensures r.order == c.order && r.current == c.current && r.targets.Keys == c.targets.Keys
    ensures TargetValue(r, key) == v
    ensures forall k :: k != key ==> TargetValue(r, k) == TargetValue(c, k)
    ensures forall k :: k in c.targets && Some(k) != c.current ==> r.targets[k] == c.targets[k]
    ensures r.targets[c.current.value] == c.targets[c.current.value].(attrs := r.targets[c.current.value].attrs)
  {
    var cur := c.current.value;
    var t := c.targets[cur];
    c.(targets := c.targets[cur := t.(attrs := t.attrs[key := v])])
  }

  /** `Config.context`: the current target's current context. */
  function CurrentContext(c: Config): (n: Option<string>)
    requires Valid(c)
    ensures n.Some? ==> c.current.Some? && n.value in c.targets[c.current.value].contexts
  {
    if c.current.Some? then c.targets[c.current.value].context else None
  }

  /** `Config.valid_context(ctx)`: the context a name or position denotes in the current
      target, if any. */
  function ValidContext(c: Config, r: Ref): (k: Option<string>)
    requires Valid(c)
    ensures k.Some? ==> c.current.Some? && k.value in c.targets[c.current.value].contexts
    ensures r.Name? ==>
              k == (if c.current.Some? && r.name in c.targets[c.current.value].contexts
                    then Some(r.name) else None)
    ensures r.Index? ==>
              k == (if c.current.Some? && 0 <= r.index < |c.targets[c.current.value].contextOrder|
                    then Some(c.targets[c.current.value].contextOrder[r.index]) else None)
  {
    if c.current.Some? then Pick(c.targets[c.current.value].contextOrder, r) else None
  }

  /** `Config.context = name`: makes a context of the current target current. */
  function SelectContext(c: Config, name: string): (r: Config)
    requires Valid(c) && c.current.Some? && name in c.targets[c.current.value].contexts
    ensures Valid(r) && CurrentContext(r) == Some(name)
    ensures r.order == c.order && r.current == c.current && r.targets.Keys == c.targets.Keys
    ensures forall k :: k in c.targets && Some(k) != c.current ==> r.targets[k] == c.targets[k]
    ensures r.targets[c.current.value] == c.targets[c.current.value].(context := Some(name))
  {
    var cur := c.current.value;
    c.(targets := c.targets[cur := c.targets[cur].(context := Some(name))])
  }

  /** The attributes of the current context, if there is one. */
  function Session(c: Config): Option<Hash>
    requires Valid(c)
  {
    match CurrentContext(c)
    case Some(n) => Some(c.targets[c.current.value].contexts[n])
    case None => None
  }

  /** `Config.value(key)`: an attribute of the current context, nil without one. */
  function SessionValue(c: Config, key: string): (v: Value)
    requires Valid(c)
    ensures CurrentContext(c).None? ==> v == Nil
  {
    match Session(c)
    case Some(h) => Get(h, key)
    case None => Nil
  }

  /** `r` differs from `c` at most in the attributes of the current context: the same
      targets, the same current target and context, the same attributes of the current
      target, the same other contexts, and no change at all without a current context. */
  ghost predicate SameButSession(c: Config, r: Config)
    requires Valid(c) && Valid(r)
  {
    && r.order == c.order && r.current == c.current && r.targets.Keys == c.targets.Keys
    && CurrentContext(r) == CurrentContext(c)
    && (forall k :: k in c.targets && Some(k) != c.current ==> r.targets[k] == c.targets[k])
    && (c.current.Some? ==>
          var t := c.targets[c.current.value];
          var t2 := r.targets[c.current.value];
          && t2 == t.(contexts := t2.contexts)
          && t2.contexts.Keys == t.contexts.Keys
          && (forall n :: n in t.contexts && Some(n) != t.context ==> t2.contexts[n] == t.contexts[n]))
    && (Session(c).None? ==> r == c)
  }

  /** Replaces the current context's attributes; without a current context nothing changes. */
  function SetSession(c: Config, h: Hash): (r: Config)
    requires Valid(c)
    ensures Valid(r) && SameButSession(c, r)
    ensures Session(r) == (if Session(c).Some? then Some(h) else None)
  {
    match CurrentContext(c)
    case None => c
    case Some(n) =>
      SessionReplaced(c, n, h);
      var cur := c.current.value;
      var t := c.targets[cur];
      c.(targets := c.targets[cur := t.(contexts := t.contexts[n := h])])
  }

  lemma SessionReplaced(c: Config, n: string, h: Hash)
    requires Valid(c) && CurrentContext(c) == Some(n)
    ensures var cur := c.current.value;
      var t := c.targets[cur];
      var r := c.(targets := c.targets[cur := t.(contexts := t.contexts[n := h])]);
      Valid(r) && SameButSession(c, r) && Session(r) == Some(h)
  {
    var cur := c.current.value;
    var t := c.targets[cur];
    var t2 := t.(contexts := t.contexts[n := h]);
    assert ValidTarget(t2);
  }

  /** `Config.add_opts(key => v)`: sets one attribute of the current context. */
  function AddSessionAttr(c: Config, key: string, v: Value): (r: Config)
    requires Valid(c)
    ensures Valid(r) && SameButSession(c, r)
    ensures Session(c).Some? ==> SessionValue(r, key) == v
    ensures forall k :: k != key ==> SessionValue(r, k) == SessionValue(c, k)
  {
    match Session(c)
    case None => c
    case Some(h) => SetSession(c, h[key := v])
  }

  /** `Config.delete_attr(key)`: removes one attribute of the current context. */
  function DeleteSessionAttr(c: Config, key: string): (r: Config)
    requires Valid(c)
    ensures Valid(r) && SameButSession(c, r)
    ensures SessionValue(r, key) == Nil
    ensures Session(r).Some? ==> key !in Session(r).value
    ensures forall k :: k != key ==> SessionValue(r, k) == SessionValue(c, k)
  {
    match Session(c)
    case None => c
    case Some(h) => SetSession(c, h - {key})
  }
}

=== FILE: context.dfy ===
/**
 The `context` command of lib/cli/common.rb: switching to a context of the current
 target by name or position, and toggling its `trace` attribute.
 */
module ContextCmd {
  import opened Wrappers
  import opened Decimal
  import opened ConfigStore

  /** `ctx = ctx.to_i if ctx.to_i.to_s == ctx`: an index-form name becomes a position. */
  function ParseRef(s: string): (r: Ref)
    ensures r.Index? <==> IsIndexForm(s)
    ensures r.Index? ==> DecimalString(r.index) == s
    ensures r.Name? ==> r.name == s
  {
    if IsIndexForm(s) then Index(ParseDecimal(s)) else Name(s)
  }

  /** The rendering of any integer reads back as that position. */
  lemma ParseRefRendering(n: int)
    ensures ParseRef(DecimalString(n)) == Index(n)
  {
    IndexFormValue(n);
  }

  /** The context a name denotes in the current target, if it is valid there. */
  function Chosen(c: Config, name: Option<string>): (k: Option<string>)
    requires Valid(c)
    ensures name.None? || c.current.None? ==> k.None?
    ensures name.Some? && !IsIndexForm(name.value) ==>
              k == (if c.current.Some? && name.value in c.targets[c.current.value].contexts
                    then Some(name.value) else None)
    ensures name.Some? && IsIndexForm(name.value) ==>
              var i := ParseDecimal(name.value);
              var order := if c.current.Some? then c.targets[c.current.value].contextOrder else [];
              k == (if 0 <= i < |order| then Some(order[i]) else None)
  {
    if name.Some? then ValidContext(c, ParseRef(name.value)) else None
  }

  /** `Config.context = ctx if ctx && Config.valid_context(ctx)`: a valid name switches
      the context, anything else is ignored. */
  function SwitchContext(c: Config, name: Option<string>): (r: Config)
    requires Valid(c)
    ensures Valid(r)
    ensures r.order == c.order && r.current == c.current && r.targets.Keys == c.targets.Keys
    ensures CurrentContext(r) == (if Chosen(c, name).Some? then Chosen(c, name) else CurrentContext(c))
    ensures Chosen(c, name).None? ==> r == c
    ensures forall k :: k in c.targets && Some(k) != c.current ==> r.targets[k] == c.targets[k]
    ensures c.current.Some? ==>
              r.targets[c.current.value] == c.targets[c.current.value].(context := r.targets[c.current.value].context)
    ensures name.Some? && !IsIndexForm(name.value) &&
            (c.current.None? || name.value !in c.targets[c.current.value].contexts) ==>
              CurrentContext(r) == CurrentContext(c)
  {
    match Chosen(c, name)
    case Some(k) => SelectContext(c, k)
    case None => c
  }

  /** `context [name]` with the `--[no-]trace` option: `Some(true)` adds the trace flag to
      the (new) current context, `Some(false)` deletes it, `None` leaves it alone. */
  function ContextCommand(c: Config, name: Option<string>, trace: Option<bool>): (r: Config)
    requires Valid(c)
    ensures Valid(r)
    ensures r.order == c.order && r.current == c.current
    ensures CurrentContext(r) == (if Chosen(c, name).Some? then Chosen(c, name) else CurrentContext(c))
    ensures name.Some? && !IsIndexForm(name.value) &&
            (c.current.None? || name.value !in c.targets[c.current.value].contexts) ==>
              CurrentContext(r) == CurrentContext(c)
    ensures trace == Some(true) && CurrentContext(r).Some? ==> SessionValue(r, "trace") == Flag(true)
    ensures trace == Some(false) ==> SessionValue(r, "trace") == Nil
    ensures trace.None? ==> SessionValue(r, "trace") == SessionValue(SwitchContext(c, name), "trace")
    ensures forall k :: k != "trace" ==> SessionValue(r, k) == SessionValue(SwitchContext(c, name), k)
    ensures r.targets.Keys == c.targets.Keys
    ensures forall k :: k in c.targets && Some(k) != c.current ==> r.targets[k] == c.targets[k]
    ensures c.current.Some? ==>
              var t := c.targets[c.current.value];
              var t2 := r.targets[c.current.value];
              && t2.attrs == t.attrs && t2.contextOrder == t.contextOrder
              && t2.contexts.Keys == t.contexts.Keys
              && (forall n :: n in t.contexts && Some(n) != CurrentContext(r) ==> t2.contexts[n] == t.contexts[n])
  {
    var c1 := SwitchContext(c, name);
    match trace
    case None => c1
    case Some(on) => if on then AddSessionAttr(c1, "trace", Flag(true)) else DeleteSessionAttr(c1, "trace")
  }

  /** An invalid name, or none, without a trace option leaves everything as it was. */
  lemma InvalidNameIgnored(c: Config, name: Option<string>)
    requires Valid(c) && Chosen(c, name).None?
    ensures ContextCommand(c, name, None) == c
  {
  }

  /** A context can be chosen by its position or by its name, unless its name is itself
      the rendering of an integer. */
  lemma PositionOrName(c: Config, i: int, trace: Option<bool>)
    requires Valid(c) && c.current.Some?
    requires 0 <= i < |c.targets[c.current.value].contextOrder|
    requires !IsIndexForm(c.targets[c.current.value].contextOrder[i])
    ensures var name := c.targets[c.current.value].contextOrder[i];
      ContextCommand(c, Some(DecimalString(i)), trace) == ContextCommand(c, Some(name), trace)
    ensures CurrentContext(ContextCommand(c, Some(DecimalString(i)), trace)) ==
              Some(c.targets[c.current.value].contextOrder[i])
  {
    var order := c.targets[c.current.value].contextOrder;
    ParseRefRendering(i);
    PickPositionOrName(order, i);
  }

  /** An index-form name always means a position: it never selects a context that
      merely bears that name. */
  lemma IndexFormMeansPosition(c: Config, n: int, trace: Option<bool>)
    requires Valid(c) && c.current.Some?
    ensures var order := c.targets[c.current.value].contextOrder;
      CurrentContext(ContextCommand(c, Some(DecimalString(n)), trace)) ==
        (if 0 <= n < |order| then Some(order[n]) else CurrentContext(c))
  {
    ParseRefRendering(n);
  }
}

=== FILE: decimal.dfy ===
/**
 The index test the command line applies to target and context names:
 `s.to_i.to_s == s`, i.e. "s is the decimal rendering of an integer".
 */
module Decimal {

  predicate IsDigit(c: char) {
    '0' <= c <= '9'
  }

  predicate AllDigits(s: string) {
    forall i :: 0 <= i < |s| ==> IsDigit(s[i])
  }

  function DigitChar(d: int): (c: char)
    requires 0 <= d < 10
    ensures IsDigit(c)
  {
    ('0' as int + d) as char
  }

  function DigitValue(c: char): (d: nat)
    requires IsDigit(c)
    ensures d < 10
  {
    c as int - '0' as int
  }

  /** Ruby's `Integer#to_s` on a non-negative integer: digits, no leading zero. */
  function NatString(n: nat): (r: string)
    ensures |r| > 0 && AllDigits(r)
    ensures r[0] == '0' ==> n == 0
    decreases n
  {
    if n < 10 then [DigitChar(n)] else NatString(n / 10) + [DigitChar(n % 10)]
  }

  /** Ruby's `Integer#to_s`. */
  function DecimalString(n: int): (r: string)
    ensures |r| > 0
    ensures r[0] == '-' <==> n < 0
  {
    if n < 0 then "-" + NatString(-n) else NatString(n)
  }

  /** Length of the longest all-digit prefix of `s`. */
  function DigitRun(s: string): (k: nat)
    ensures k <= |s| && AllDigits(s[..k])
    ensures k < |s| ==> !IsDigit(s[k])
  {
    if |s| == 0 || !IsDigit(s[0]) then 0 else 1 + DigitRun(s[1..])
  }

  /** The number an all-digit string denotes. */
  function DigitsValue(s: string): nat
    requires AllDigits(s)
  {
    if |s| == 0 then 0 else DigitsValue(s[..|s| - 1]) * 10 + DigitValue(s[|s| - 1])
  }

  /** `String#to_i` on a string that is an optional minus sign followed by digits:
      the value of the leading digit run, negated after a minus sign. */
  function ParseDecimal(s: string): (n: int)
    ensures n < 0 ==> s != [] && s[0] == '-'
  {
    if |s| > 0 && s[0] == '-' then
      var t := s[1..];
      var v: int := DigitsValue(t[..DigitRun(t)]);
      -v
    else
      DigitsValue(s[..DigitRun(s)])
  }

  /** The test `s.to_i.to_s == s`. */
  predicate IsIndexForm(s: string): (b: bool)
    ensures b ==> s != [] && (s[0] == '-' || IsDigit(s[0]))
  {
    DecimalString(ParseDecimal(s)) == s
  }

  lemma {:induction false} DigitRunAll(s: string)
    requires AllDigits(s)
    ensures DigitRun(s) == |s|
  {
    if |s| > 0 {
      DigitRunAll(s[1..]);
    }
  }

  /** Reading back the rendering of a natural number gives the number. */
  lemma {:induction false} NatStringValue(n: nat)
    ensures DigitsValue(NatString(n)) == n
    decreases n
  {
    if n >= 10 {
      var r := NatString(n);
      assert r[..|r| - 1] == NatString(n / 10);
      NatStringValue(n / 10);
    }
  }

  /** Round trip: parsing the rendering of any integer gives back that integer. */
  lemma ParseDecimalString(n: int)
    ensures ParseDecimal(DecimalString(n)) == n
  {
    var m: nat := if n < 0 then -n else n;
    var d := NatString(m);
    DigitRunAll(d);
    NatStringValue(m);
    assert d[..|d|] == d;
    if n < 0 {
      assert DecimalString(n)[1..] == d;
    }
  }

  /** The index test holds exactly of the decimal renderings of integers, so it does not
      depend on how `to_i` reads any other string. */
  lemma IndexFormExact(s: string)
    ensures IsIndexForm(s) <==> exists n :: DecimalString(n) == s
  {
    if exists n :: DecimalString(n) == s {
      var n :| DecimalString(n) == s;
      ParseDecimalString(n);
    }
  }

  /** The integer an index-form string denotes is the one it renders. */
  lemma IndexFormValue(n: int)
    ensures IsIndexForm(DecimalString(n))
    ensures ParseDecimal(DecimalString(n)) == n
  {
    ParseDecimalString(n);
  }
}

=== FILE: scenarios.dfy ===
/** Worked examples of the target and context commands on concrete inputs. */
module Scenarios {
  import opened Wrappers
  import opened Text
  import opened Decimal
  import opened Url
  import opened ConfigStore
  import opened TargetCmd
  import opened ContextCmd

  const Empty := Config([], map[], None)

  /** A probe that reaches only the given URL. */
  function OnlyReaches(good: string, info: Hash): string -> Reply {
    u => if u == good then Reached(info) else Refused("connection refused")
  }

  /** A bare host name, with no scheme, path or whitespace, and its candidates. */
  lemma PlainHost(s: string, sc: Scheme)
    requires s != [] && !HasSpace(s) && NoHostEnd(s) && SchemeOf(s).None?
    ensures Normalize(s, None) == NoScheme
    ensures Candidate(s, sc) == Prefix(sc) + Lower(s)
  {
    assert s[|s| - 1] != '/';
    NormalizeTrimmed(s, None);
    NormalizeTrimmed(s, Some(sc));
    QualifyDefault(s, sc);
    CanonicalOfParsed(sc, s, "");
    assert s + "" == s;
  }

  lemma NotIndex(s: string)
    requires s != [] && !IsDigit(s[0]) && s[0] != '-'
    ensures !IsIndexForm(s)
  {
    assert DigitRun(s) == 0 && ParseDecimal(s) == 0 && DecimalString(0) == "0";
  }

  lemma ExampleFacts()
    ensures !HasSpace("example.com") && NoHostEnd("example.com")
    ensures Lower("example.com") == "example.com" && !IsIndexForm("example.com")
  {
    NotIndex("example.com");
  }

  lemma ExampleLiterals()
    ensures SchemeOf("example.com").None?
    ensures Prefix(Https) + "example.com" == "https://example.com"
    ensures Prefix(Http) + "example.com" == "http://example.com"
  {
    assert Prefix(Http)[0] == 'h' && Prefix(Https)[0] == 'h' && "example.com"[0] == 'e';
  }

  lemma ExampleCandidates()
    ensures Normalize("example.com", None) == NoScheme
    ensures Candidate("example.com", Https) == "https://example.com"
    ensures Candidate("example.com", Http) == "http://example.com"
  {
    ExampleFacts();
    ExampleLiterals();
    PlainHost("example.com", Https);
    PlainHost("example.com", Http);
  }

  /** An empty configuration, the address `example.com` and a server that answers only
      on https: the target becomes `https://example.com` after one probe. */
  lemma FreshHostPrefersHttps(info: Hash)
    ensures var probe := OnlyReaches("https://example.com", info);
      && ResolveIn(Empty, "example.com", false, probe) == Success(Resolved("https://example.com", info))
      && ProbedUrls("example.com", false, u => Known(Empty, u), i => TargetAt(Empty, i), probe) == ["https://example.com"]
  {
    ExampleFacts();
    ExampleCandidates();
    var probe := OnlyReaches("https://example.com", info);
    ResolveFallback("example.com", false, u => Known(Empty, u), i => TargetAt(Empty, i), probe);
  }

  /** After that, the configuration's current target is `https://example.com`, which has
      no context. */
  lemma FreshHostCommitted(info: Hash)
    ensures var probe := OnlyReaches("https://example.com", info);
      var c := TargetCommand(Empty, Some("example.com"), false, probe).cfg;
      c.current == Some("https://example.com") && CurrentContext(c).None?
  {
    FreshHostPrefersHttps(info);
    var probe := OnlyReaches("https://example.com", info);
    var url := "https://example.com";
    var res := Resolved(url, info);
    var c := TargetCommand(Empty, Some("example.com"), false, probe).cfg;
    assert c == Commit(Empty, res, probe);
    var c1 := SetTarget(Empty, url);
    assert c1.targets[url] == EmptyTarget;
    assert c.targets[url].context == c1.targets[url].context;
  }

  lemma AComFacts()
    ensures !HasSpace("a.com") && NoHostEnd("a.com") && SchemeOf("a.com").None?
    ensures Lower("a.com") == "a.com" && Prefix(Https) + "a.com" == "https://a.com"
    ensures !IsIndexForm("a.com")
  {
    NotIndex("a.com");
  }

  /** One target, `https://a.com`, none of them current. */
  const AOnly := Config(["https://a.com"], map["https://a.com" := EmptyTarget], None)

  lemma AOnlyValid()
    ensures Valid(AOnly) && Known(AOnly, "https://a.com")
  {
  }

  /** `a.com` is already a target (not the current one): choosing it asks no server. */
  lemma KnownHostNotProbed(probe: string -> Reply)
    ensures ProbedUrls("a.com", false, u => Known(AOnly, u), i => TargetAt(AOnly, i), probe) == []
    ensures ResolveIn(AOnly, "a.com", false, probe) == Success(Resolved("https://a.com", map[]))
  {
    var s := "a.com";
    AOnlyValid();
    AComFacts();
    PlainHost(s, Https);
    ResolveFallback(s, false, u => Known(AOnly, u), i => TargetAt(AOnly, i), probe);
  }

  /** ... and the command makes it the current target, changing nothing else. */
  lemma KnownHostSelected(probe: string -> Reply)
    ensures Valid(AOnly)
    ensures TargetCommand(AOnly, Some("a.com"), false, probe) == Outcome(AOnly.(current := Some("https://a.com")), None)
  {
    AOnlyValid();
    KnownHostNotProbed(probe);
  }

  /** `target 0` on an empty configuration: "invalid target index", nothing changes. */
  lemma IndexIntoEmpty(force: bool, probe: string -> Reply)
    ensures TargetCommand(Empty, Some("0"), force, probe) == Outcome(Empty, Some(BadIndex))
    ensures Message(BadIndex) == "invalid target index"
  {
    ResolveIndex(0, force, u => Known(Empty, u), i => TargetAt(Empty, i), probe);
    assert DecimalString(0) == "0";
  }

  lemma BadHostFacts()
    ensures Normalize("bad host", None) == Whitespace
    ensures !IsIndexForm("bad host")
  {
    NotIndex("bad host");
    BadHostCleaned();
    assert IsSpace("bad host"[3]);
  }

  lemma BadHostCleaned()
    ensures Cleaned("bad host") == "bad host"
  {
    var s := "bad host";
    assert s[|s| - 1] == 't';
    CleanedFixedEnds(s);
  }

  /** An address with a space inside: the whitespace error, nothing changes. */
  lemma SpaceInsideAddress(force: bool, probe: string -> Reply)
    ensures TargetCommand(Empty, Some("bad host"), force, probe) == Outcome(Empty, Some(BadWhitespace))
  {
    BadHostFacts();
  }

  /** Trailing slashes are dropped: `https://host///` and `https://host` are one target. */
  lemma TrailingSlashesDropped(d: Option<Scheme>)
    ensures Normalize("https://host///", d) == Normalize("https://host", d)
  {
    var u := "https://host";
    assert "https://host///" == [] + u + "///" + [];
    NormalizeIgnoresPadding([], u, "///", [], d);
  }

  lemma MixedCaseFacts()
    ensures !HasSpace("ExAmple.COM") && !HasSpace("/Path") && NoHostEnd("ExAmple.COM")
    ensures Lower("ExAmple.COM") == "example.com"
  {
    var s := "ExAmple.COM";
    assert forall i | 0 <= i < |s| :: Lower(s)[i] == LowerChar(s[i]);
  }

  /** Only the host is lower-cased: `https://ExAmple.COM/Path` becomes
      `https://example.com/Path`. */
  lemma HostLowerCased(d: Option<Scheme>)
    ensures Normalize(Prefix(Https) + "ExAmple.COM" + "/Path", d) == Ok(Prefix(Https) + "example.com" + "/Path")
  {
    MixedCaseFacts();
    NormalizeParsed(Https, "ExAmple.COM", "/Path", d);
  }

  /** Contexts `alice` (current) and `bob`: `context bob` makes `bob` current. */
  lemma SwitchToBob()
    ensures var t := Target(map[], ["alice", "bob"], map["alice" := map[], "bob" := map[]], Some("alice"));
      var c := Config(["https://uaa.example"], map["https://uaa.example" := t], Some("https://uaa.example"));
      CurrentContext(ContextCommand(c, Some("bob"), None)) == Some("bob")
  {
    var s := "bob";
    assert DigitRun(s) == 0 && ParseDecimal(s) == 0 && DecimalString(0) == "0";
    assert ParseRef(s) == Name(s);
  }
}

=== FILE: target.dfy ===
/**
 The `target` command of lib/cli/common.rb: which canonical URL becomes the current
 target, the reachability check `bad_uaa_url`, and `update_target_info`, which merges
 the server's metadata into the target's attributes. `Misc.server`, the network call,
 is a parameter: a function from URL to the server's reply.
 */
module TargetCmd {
  import opened Wrappers
  import opened Text
  import opened Decimal
  import opened Url
  import opened ConfigStore

  /** What `Misc.server(url)` does: returns the server's information hash, or raises
      an exception with a message. */
  datatype Reply = Reached(info: Hash) | Refused(reason: string)

  /** The failures of the `target` command. */
  datatype TargetError =
    | BadIndex                                 // an index with no target behind it
    | BadWhitespace                            // the ArgumentError of `normalize_url`
    | Unreachable(url: string, reason: string) // the probe of `bad_uaa_url` failed

  /** The text the command reports for each failure. */
  function Message(e: TargetError): string {
    match e
    case BadIndex => "invalid target index"
    case BadWhitespace => "invalid whitespace in target url"
    case Unreachable(url, reason) => "failed to access " + url + ": " + reason
  }

  /** `bad_uaa_url(url, info)`: the server's information when it can be reached, the
      failure otherwise. */
  function Access(url: string, probe: string -> Reply): (r: Result<Hash, TargetError>)
    ensures r.Success? <==> probe(url).Reached?
    ensures r.Success? ==> r.value == probe(url).info
    ensures r.Failure? ==> r.error == Unreachable(url, probe(url).reason)
  {
    match probe(url)
    case Reached(info) => Success(info)
    case Refused(reason) => Failure(Unreachable(url, reason))
  }

  /** The chosen target and the information hash left by the probe that chose it
      (empty when no probe succeeded or none was made). */
  datatype Resolved = Resolved(url: string, info: Hash)

  /** `normalize_url(uaa_url, scheme)` for an address that has no scheme of its own. */
  function Candidate(input: string, sc: Scheme): (u: string)
    requires Normalize(input, None) == NoScheme
    ensures Normalize(input, Some(sc)) == Ok(u)
  {
    Normalize(input, Some(sc)).url
  }

  /** An address with an explicit scheme (lines 123-124): accepted unprobed when forced
      or known, otherwise only if the server answers. */
  function Explicit(url: string, force: bool, known: string -> bool, probe: string -> Reply): (r: Result<Resolved, TargetError>)
    ensures r.Success? ==> r.value.url == url
    ensures r.Success? ==> r.value.info == map[] || probe(url) == Reached(r.value.info)
    ensures r.Failure? <==> !force && !known(url) && probe(url).Refused?
    ensures r.Failure? ==> r.error == Unreachable(url, probe(url).reason)
    ensures r.Success? ==> r.value.info == (if force || known(url) then map[] else probe(url).info)
  {
    if force || known(url) then Success(Resolved(url, map[]))
    else
      match Access(url, probe)
      case Success(info) => Success(Resolved(url, info))
      case Failure(e) => Failure(e)
  }

  /** A scheme-less address (lines 125-132), given its https and http candidates. */
  function Fallback(https: string, http: string, force: bool, known: string -> bool,
                    probe: string -> Reply): (r: Result<Resolved, TargetError>)
    ensures r.Success? ==> r.value.url == https || r.value.url == http
    ensures r.Success? ==> r.value.info == map[] || probe(r.value.url) == Reached(r.value.info)
    ensures r.Failure? <==> !known(https) && !known(http) && !force && probe(https).Refused? && probe(http).Refused?
    ensures r.Failure? ==> r.error == Unreachable(http, probe(http).reason)
    ensures r.Success? && r.value.url == http && http != https ==>
              !known(https) && (known(http) || (!force && probe(https).Refused?))
  {
    if known(https) then Success(Resolved(https, map[]))
    else if known(http) then Success(Resolved(http, map[]))
    else if force then Success(Resolved(https, map[]))
    else
      match Access(https, probe)
      case Success(info) => Success(Resolved(https, info))
      case Failure(_) =>
        match Access(http, probe)
        case Success(info) => Success(Resolved(http, info))
        case Failure(e) => Failure(e)
  }

  /** The decision part of the `target` command (lines 119-132): which URL becomes the
      target. `known` is `Config.target?(url)`, `targetAt` is `Config.target?(i)` and
      `probe` is `Misc.server`. */
  function Resolve(input: string, force: bool, known: string -> bool,
                   targetAt: int -> Option<string>, probe: string -> Reply): (r: Result<Resolved, TargetError>)
    ensures r.Success? && !IsIndexForm(input) ==> SchemeOf(r.value.url).Some? && !HasSpace(r.value.url)
    ensures r.Success? ==> r.value.info == map[] || probe(r.value.url) == Reached(r.value.info)
    ensures r.Failure? && r.error.Unreachable? ==>
              !force && !known(r.error.url) && probe(r.error.url) == Refused(r.error.reason)
    ensures r.Failure? ==> (r.error == BadIndex <==> IsIndexForm(input))
    ensures r.Failure? && force ==> !r.error.Unreachable?
    ensures !IsIndexForm(input) ==> (r == Failure(BadWhitespace) <==> HasSpace(Cleaned(input)))
  {
    if IsIndexForm(input) then
      match targetAt(ParseDecimal(input))
      case None => Failure(BadIndex)
      case Some(url) => Success(Resolved(url, map[]))
    else
      match Normalize(input, None)
      case Whitespace => Failure(BadWhitespace)
      case Ok(url) => Explicit(url, force, known, probe)
      case NoScheme => Fallback(Candidate(input, Https), Candidate(input, Http), force, known, probe)
  }

  /** The URLs `Resolve` hands to the probe, in the order it does so. */
  function ProbedUrls(input: string, force: bool, known: string -> bool,
                      targetAt: int -> Option<string>, probe: string -> Reply): (urls: seq<string>)
    ensures |urls| <= 2
    ensures forall u :: u in urls ==> !force && !known(u)
    ensures |urls| == 2 ==> probe(urls[0]).Refused?
    ensures !IsIndexForm(input) && HasSpace(Cleaned(input)) ==> urls == []
  {
    if IsIndexForm(input) then []
    else
      match Normalize(input, None)
      case Whitespace => []
      case Ok(url) => if force || known(url) then [] else [url]
      case NoScheme =>
        var https := Candidate(input, Https);
        var http := Candidate(input, Http);
        if known(https) || known(http) || force then []
        else if probe(https).Reached? then [https]
        else [https, http]
  }

  /** The outcome depends on the probe only at the URLs it is asked about: two probes
      that agree there give the same outcome and are asked the same questions. */
  lemma ProbeOnlyWhereAsked(input: string, force: bool, known: string -> bool,
                            targetAt: int -> Option<string>, probe: string -> Reply, other: string -> Reply)
    requires forall u :: u in ProbedUrls(input, force, known, targetAt, probe) ==> other(u) == probe(u)
    ensures Resolve(input, force, known, targetAt, other) == Resolve(input, force, known, targetAt, probe)
    ensures ProbedUrls(input, force, known, targetAt, other) == ProbedUrls(input, force, known, targetAt, probe)
  {
    if !IsIndexForm(input) && Normalize(input, None).NoScheme? {
      var https := Candidate(input, Https);
      var http := Candidate(input, Http);
      if !known(https) && !known(http) && !force {
        assert https in ProbedUrls(input, force, known, targetAt, probe);
        if !probe(https).Reached? {
          assert http in ProbedUrls(input, force, known, targetAt, probe);
        }
      }
    } else if !IsIndexForm(input) && Normalize(input, None).Ok? {
      var url := Normalize(input, None).url;
      if !force && !known(url) {
        assert url in ProbedUrls(input, force, known, targetAt, probe);
      }
    }
  }

  /** With `force` nothing is probed. */
  lemma ForceNeverProbes(input: string, known: string -> bool,
                         targetAt: int -> Option<string>, probe: string -> Reply)
    ensures ProbedUrls(input, true, known, targetAt, probe) == []
  {
  }

  /** An index input: the target at that position, or "invalid target index"; no probe. */
  lemma ResolveIndex(n: int, force: bool, known: string -> bool,
                     targetAt: int -> Option<string>, probe: string -> Reply)
    ensures var r := Resolve(DecimalString(n), force, known, targetAt, probe);
      && (r.Success? <==> targetAt(n).Some?)
      && (r.Success? ==> r.value == Resolved(targetAt(n).value, map[]))
      && (r.Failure? ==> r.error == BadIndex)
    ensures ProbedUrls(DecimalString(n), force, known, targetAt, probe) == []
  {
    IndexFormValue(n);
  }

  /** An address with an explicit scheme: probed only when neither forced nor known,
      and failing only when that probe fails. */
  lemma ResolveExplicit(input: string, url: string, force: bool, known: string -> bool,
                        targetAt: int -> Option<string>, probe: string -> Reply)
    requires !IsIndexForm(input) && Normalize(input, None) == Ok(url)
    ensures var r := Resolve(input, force, known, targetAt, probe);
      && (r.Success? ==> r.value.url == url)
      && (r.Success? ==> r.value.info == (if force || known(url) then map[] else probe(url).info))
      && (r.Failure? <==> !force && !known(url) && probe(url).Refused?)
      && (r.Failure? ==> Message(r.error) == "failed to access " + url + ": " + probe(url).reason)
    ensures ProbedUrls(input, force, known, targetAt, probe) == (if force || known(url) then [] else [url])
  {
  }

  /** The https and http candidates name the same address under the two schemes. */
  lemma CandidatesAgree(input: string)
    requires Normalize(input, None) == NoScheme
    ensures Prefix(Https) <= Candidate(input, Https) && Prefix(Http) <= Candidate(input, Http)
    ensures Candidate(input, Https)[|Prefix(Https)|..] == Candidate(input, Http)[|Prefix(Http)|..]
  {
    var t := Cleaned(input);
    QualifyDefault(t, Https);
    QualifyDefault(t, Http);
    var h, rest := CanonicalParts(Https, t);
    var h2, rest2 := CanonicalParts(Http, t);
    HostLengthOf(h, rest);
    HostLengthOf(h2, rest2);
    assert h == t[..HostLength(t)] == h2;
    var tail := Lower(h) + rest;
    assert (Prefix(Https) + tail)[|Prefix(Https)|..] == tail;
    assert (Prefix(Http) + tail)[|Prefix(Http)|..] == tail;
  }

  /** A scheme-less address: a known https candidate, then a known http candidate, then
      https under `force`, then whichever of https and http answers the probe first;
      only when both probes fail is there an error, and it carries the http failure. */
  lemma ResolveFallback(input: string, force: bool, known: string -> bool,
                        targetAt: int -> Option<string>, probe: string -> Reply)
    requires !IsIndexForm(input) && Normalize(input, None) == NoScheme
    ensures var https := Candidate(input, Https);
      var http := Candidate(input, Http);
      var r := Resolve(input, force, known, targetAt, probe);
      && (known(https) ==> r == Success(Resolved(https, map[])))
      && (!known(https) && known(http) ==> r == Success(Resolved(http, map[])))
      && (!known(https) && !known(http) && force ==> r == Success(Resolved(https, map[])))
      && (!known(https) && !known(http) && !force && probe(https).Reached? ==>
            r == Success(Resolved(https, probe(https).info)))
      && (!known(https) && !known(http) && !force && probe(https).Refused? && probe(http).Reached? ==>
            r == Success(Resolved(http, probe(http).info)))
      && (r.Failure? <==> !known(https) && !known(http) && !force && probe(https).Refused? && probe(http).Refused?)
      && (r.Failure? ==> r.error == Unreachable(http, probe(http).reason))
    ensures var https := Candidate(input, Https);
      var http := Candidate(input, Http);
      ProbedUrls(input, force, known, targetAt, probe) ==
        (if known(https) || known(http) || force then []
         else if probe(https).Reached? then [https]
         else [https, http])
  {
  }

  /** Every URL the command settles on from an address is canonical: normalising it
      again changes nothing. */
  lemma ResolvedIsCanonical(input: string, force: bool, known: string -> bool,
                            targetAt: int -> Option<string>, probe: string -> Reply)
    requires !IsIndexForm(input) && Cleaned(input) != []
    ensures var r := Resolve(input, force, known, targetAt, probe);
      r.Success? ==> Normalize(r.value.url, None) == Ok(r.value.url)
  {
    var r := Resolve(input, force, known, targetAt, probe);
    if r.Success? {
      var u := r.value.url;
      match Normalize(input, None)
      case Ok(v) =>
        NormalizeIdempotent(input, None, None);
      case NoScheme =>
        var sc := if u == Candidate(input, Https) then Https else Http;
        NormalizeIdempotent(input, Some(sc), None);
    }
  }

  /** The result of `update_target_info`: the configuration and the hash it returns. */
  datatype Updated = Updated(cfg: Config, info: Option<Hash>)

  /** `c2` is `c` with the server information `h` merged into the current target: its
      `prompts` always, its `token_endpoint` only when it has one, nothing else. */
  ghost predicate Merged(c: Config, c2: Config, h: Hash)
    requires Valid(c) && Valid(c2)
  {
    && TargetValue(c2, "prompts") == Get(h, "prompts")
    && TargetValue(c2, "token_endpoint") ==
         (if Truthy(Get(h, "token_endpoint")) then Get(h, "token_endpoint") else TargetValue(c, "token_endpoint"))
    && (forall k :: k != "prompts" && k != "token_endpoint" ==> TargetValue(c2, k) == TargetValue(c, k))
  }

  /** Only the current target's attributes may differ between `c` and `c2`. */
  ghost predicate SameButTargetAttrs(c: Config, c2: Config)
    requires Valid(c) && c.current.Some?
  {
    && c2.order == c.order && c2.current == c.current && c2.targets.Keys == c.targets.Keys
    && (forall k :: k in c.targets && k != c.current.value ==> c2.targets[k] == c.targets[k])
    && c2.targets[c.current.value] == c.targets[c.current.value].(attrs := c2.targets[c.current.value].attrs)
  }

  /** `update_target_info(info)`. Without `info` it does nothing when `prompts` is
      cached and otherwise asks the server about the current target. */
  function UpdateTargetInfo(c: Config, info: Option<Hash>, probe: string -> Reply): (r: Result<Updated, string>)
    requires Valid(c) && c.current.Some?
    ensures r.Success? ==> Valid(r.value.cfg) && SameButTargetAttrs(c, r.value.cfg)
    ensures info.None? && Truthy(TargetValue(c, "prompts")) ==> r == Success(Updated(c, None))
    ensures r.Failure? <==> info.None? && !Truthy(TargetValue(c, "prompts")) && probe(c.current.value).Refused?
    ensures r.Failure? ==> r.error == probe(c.current.value).reason
    ensures r.Success? && r.value.info.Some? ==> Merged(c, r.value.cfg, r.value.info.value)
    ensures info.Some? ==> r.Success? && r.value.info == info
    ensures r.Success? && info.None? && r.value.info.Some? ==> probe(c.current.value) == Reached(r.value.info.value)
    ensures info.Some? ==> r == Success(Updated(MergeInfo(c, info.value), info))
    ensures info.None? && !Truthy(TargetValue(c, "prompts")) && probe(c.current.value).Reached? ==>
              var h := probe(c.current.value).info;
              r == Success(Updated(MergeInfo(c, h), Some(h)))
  {
    if info.None? && Truthy(TargetValue(c, "prompts")) then Success(Updated(c, None))
    else
      var fetched: Result<Hash, string> :=
        if info.Some? then Success(info.value)
        else match probe(c.current.value)
          case Reached(h) => Success(h)
          case Refused(m) => Failure(m);
      match fetched
      case Failure(m) => Failure(m)
      case Success(h) => Success(Updated(MergeInfo(c, h), Some(h)))
  }

  /** The merge step of `update_target_info`: `prompts` always, `token_endpoint` only
      when the server gave a truthy one. */
  function MergeInfo(c: Config, h: Hash): (r: Config)
    requires Valid(c) && c.current.Some?
    ensures Valid(r) && SameButTargetAttrs(c, r) && Merged(c, r, h)
  {
    var c1 := SetTargetAttr(c, "prompts", Get(h, "prompts"));
    if Truthy(Get(h, "token_endpoint")) then SetTargetAttr(c1, "token_endpoint", Get(h, "token_endpoint")) else c1
  }

  /** Once prompts have been merged, calling without information is a no-op that needs
      no server. */
  lemma UpdateThenCached(c: Config, h: Hash, probe: string -> Reply, other: string -> Reply)
    requires Valid(c) && c.current.Some? && Truthy(Get(h, "prompts"))
    ensures var c2 := UpdateTargetInfo(c, Some(h), probe).value.cfg;
      UpdateTargetInfo(c2, None, other) == Success(Updated(c2, None))
  {
  }

  /** Setting an attribute to the value it already has changes nothing. */
  lemma SetTargetAttrAgain(c: Config, key: string, v: Value)
    requires Valid(c) && c.current.Some?
    requires key in c.targets[c.current.value].attrs && c.targets[c.current.value].attrs[key] == v
    ensures SetTargetAttr(c, key, v) == c
  {
    var cur := c.current.value;
    var t := c.targets[cur];
    assert t.attrs[key := v] == t.attrs;
    assert t.(attrs := t.attrs[key := v]) == t;
    assert c.targets[cur := t] == c.targets;
  }

  /** Merging the same information twice is merging it once. */
  lemma UpdateIdempotent(c: Config, h: Hash, probe: string -> Reply)
    requires Valid(c) && c.current.Some?
    ensures var c2 := UpdateTargetInfo(c, Some(h), probe).value.cfg;
      UpdateTargetInfo(c2, Some(h), probe).value.cfg == c2
  {
    var cur := c.current.value;
    var c1 := SetTargetAttr(c, "prompts", Get(h, "prompts"));
    var c2 := UpdateTargetInfo(c, Some(h), probe).value.cfg;
    assert c2 == MergeInfo(c, h);
    assert "prompts" in c1.targets[cur].attrs;
    if Truthy(Get(h, "token_endpoint")) {
      var tok := Get(h, "token_endpoint");
      assert c2 == SetTargetAttr(c1, "token_endpoint", tok);
      assert "prompts" in c2.targets[cur].attrs && c2.targets[cur].attrs["prompts"] == Get(h, "prompts");
      SetTargetAttrAgain(c2, "prompts", Get(h, "prompts"));
      assert "token_endpoint" in c2.targets[cur].attrs;
      SetTargetAttrAgain(c2, "token_endpoint", tok);
    } else {
      assert c2 == c1;
      SetTargetAttrAgain(c2, "prompts", Get(h, "prompts"));
    }
  }

  /** The outcome of the `target` command: the configuration afterwards and the failure
      it reported, if any. */
  datatype Outcome = Outcome(cfg: Config, error: Option<TargetError>)

  /** `Resolve` against a configuration: `Config.target?` answers from its targets. */
  function ResolveIn(c: Config, input: string, force: bool, probe: string -> Reply): Result<Resolved, TargetError> {
    Resolve(input, force, u => Known(c, u), i => TargetAt(c, i), probe)
  }

  /** Lines 133-134: the resolved URL becomes the current target, and the probe's
      information is merged when it carries `prompts`. */
  function Commit(c: Config, res: Resolved, probe: string -> Reply): (r: Config)
    requires Valid(c)
    ensures Valid(r) && r.current == Some(res.url)
    ensures r.targets.Keys == c.targets.Keys + {res.url}
    ensures forall i :: 0 <= i < |c.order| ==> TargetAt(r, i) == TargetAt(c, i)
    ensures forall k :: k in c.targets && k != res.url ==> r.targets[k] == c.targets[k]
    ensures !Truthy(Get(res.info, "prompts")) ==> r == SetTarget(c, res.url)
    ensures Truthy(Get(res.info, "prompts")) ==>
              SameButTargetAttrs(SetTarget(c, res.url), r) && Merged(SetTarget(c, res.url), r, res.info)
  {
    var c1 := SetTarget(c, res.url);
    if Truthy(Get(res.info, "prompts")) then UpdateTargetInfo(c1, Some(res.info), probe).value.cfg
    else c1
  }

  /** `target [uaa_url]`: with an address, resolve it and commit the result; a failure
      leaves the configuration as it was. */
  function TargetCommand(c: Config, input: Option<string>, force: bool, probe: string -> Reply): (r: Outcome)
    requires Valid(c)
    ensures Valid(r.cfg)
    ensures r.error.Some? ==> r.cfg == c
    ensures input.None? ==> r == Outcome(c, None)
    ensures input.Some? ==> (r.error.None? <==> ResolveIn(c, input.value, force, probe).Success?)
    ensures input.Some? && r.error.Some? ==> r.error == Some(ResolveIn(c, input.value, force, probe).error)
    ensures input.Some? && r.error.None? ==>
              r.cfg.current == Some(ResolveIn(c, input.value, force, probe).value.url)
    ensures input.Some? && r.error.None? ==>
              r.cfg == Commit(c, ResolveIn(c, input.value, force, probe).value, probe)
  {
    match input
    case None => Outcome(c, None)
    case Some(s) =>
      match ResolveIn(c, s, force, probe)
      case Failure(e) => Outcome(c, Some(e))
      case Success(res) => Outcome(Commit(c, res, probe), None)
  }
}

=== FILE: text.dfy ===
/**
 The Ruby string operations `normalize_url` relies on: `String#strip`, the `\s`
 character class, removal of trailing slashes and ASCII lower-casing.
 */
module Text {

  /** The characters of Ruby's `\s` class, which are also the ones `String#strip` removes:
      space, tab, line feed, vertical tab, form feed and carriage return. */
  predicate IsSpace(c: char) {
    c == ' ' || c == '\t' || c == '\n' || c == '\U{B}' || c == '\U{C}' || c == '\r'
  }

  /** The regular-expression test `s =~ /\s/`. */
  predicate HasSpace(s: string) {
    exists i :: 0 <= i < |s| && IsSpace(s[i])
  }

  predicate AllSpace(s: string) {
    forall i :: 0 <= i < |s| ==> IsSpace(s[i])
  }

  predicate AllSlash(s: string) {
    forall i :: 0 <= i < |s| ==> s[i] == '/'
  }

  /** Number of whitespace characters `s` starts with. */
  function LeadingSpace(s: string): (n: nat)
    ensures n <= |s|
    ensures forall i :: 0 <= i < n ==> IsSpace(s[i])
    ensures n < |s| ==> !IsSpace(s[n])
  {
    if |s| == 0 || !IsSpace(s[0]) then 0 else 1 + LeadingSpace(s[1..])
  }

  /** Number of whitespace characters `s` ends with. */
  function TrailingSpace(s: string): (n: nat)
    ensures n <= |s|
    ensures forall i :: |s| - n <= i < |s| ==> IsSpace(s[i])
    ensures n < |s| ==> !IsSpace(s[|s| - 1 - n])
  {
    if |s| == 0 || !IsSpace(s[|s| - 1]) then 0 else 1 + TrailingSpace(s[..|s| - 1])
  }

  /** Number of `/` characters `s` ends with. */
  function TrailingSlash(s: string): (n: nat)
    ensures n <= |s|
    ensures forall i :: |s| - n <= i < |s| ==> s[i] == '/'
    ensures n < |s| ==> s[|s| - 1 - n] != '/'
  {
    if |s| == 0 || s[|s| - 1] != '/' then 0 else 1 + TrailingSlash(s[..|s| - 1])
  }

  /** Ruby's `String#strip`. */
  function Strip(s: string): (r: string)
    ensures r == [] || (!IsSpace(r[0]) && !IsSpace(r[|r| - 1]))
    ensures r == [] <==> AllSpace(s)
  {
    var t := s[LeadingSpace(s)..];
    assert t != [] ==> !IsSpace(t[0]);
    t[..|t| - TrailingSpace(t)]
  }

  /** The `gsub` in `normalize_url`, on a string without line breaks: every trailing slash is removed. */
  function TrimSlashes(s: string): (r: string)
    ensures r == [] || r[|r| - 1] != '/'
  {
    s[..|s| - TrailingSlash(s)]
  }

  /** ASCII lower-casing of one character; every other character is left alone. */
  function LowerChar(c: char): char {
    if 'A' <= c <= 'Z' then (c as int + 32) as char else c
  }

  /** Ruby's `downcase` on the ASCII characters a URL host consists of. */
  function Lower(s: string): (r: string)
    ensures |r| == |s|
    ensures forall i {:trigger r[i]} :: 0 <= i < |s| && !('A' <= s[i] <= 'Z') ==> r[i] == s[i]
    ensures forall i {:trigger r[i]} :: 0 <= i < |s| && 'A' <= s[i] <= 'Z' ==> r[i] as int == s[i] as int + 32
  {
    seq(|s|, i requires 0 <= i < |s| => LowerChar(s[i]))
  }

  /** Lower-casing changes letters only: whitespace and punctuation keep their places. */
  lemma LowerCharKeepsOthers(c: char)
    ensures IsSpace(LowerChar(c)) <==> IsSpace(c)
    ensures LowerChar(c) == '/' <==> c == '/'
    ensures LowerChar(LowerChar(c)) == LowerChar(c)
  {
  }

  lemma LowerAppend(a: string, b: string)
    ensures Lower(a + b) == Lower(a) + Lower(b)
  {
  }

  lemma LowerIdempotent(s: string)
    ensures Lower(Lower(s)) == Lower(s)
  {
    forall i | 0 <= i < |s| {
      LowerCharKeepsOthers(s[i]);
    }
  }

  /** Lower-casing introduces no whitespace and keeps a final character other than `/`. */
  lemma LowerKeepsShape(s: string)
    ensures HasSpace(Lower(s)) <==> HasSpace(s)
    ensures s != [] ==> (Lower(s)[|s| - 1] == '/' <==> s[|s| - 1] == '/')
  {
    forall i | 0 <= i < |s|
      ensures IsSpace(Lower(s)[i]) <==> IsSpace(s[i])
    {
      LowerCharKeepsOthers(s[i]);
    }
    if s != [] {
      LowerCharKeepsOthers(s[|s| - 1]);
    }
  }

  lemma SpaceAppend(a: string, b: string)
    ensures HasSpace(a + b) <==> HasSpace(a) || HasSpace(b)
  {
    if HasSpace(a) {
      var i :| 0 <= i < |a| && IsSpace(a[i]);
      assert (a + b)[i] == a[i];
    }
    if HasSpace(b) {
      var i :| 0 <= i < |b| && IsSpace(b[i]);
      assert (a + b)[|a| + i] == b[i];
    }
  }

  /** The counts are determined by where the run ends. */
  lemma LeadingSpaceIs(s: string, n: nat)
    requires n <= |s| && (forall i :: 0 <= i < n ==> IsSpace(s[i])) && (n < |s| ==> !IsSpace(s[n]))
    ensures LeadingSpace(s) == n
  {
  }

  lemma TrailingSpaceIs(s: string, n: nat)
    requires n <= |s| && (forall i :: |s| - n <= i < |s| ==> IsSpace(s[i]))
    requires n < |s| ==> !IsSpace(s[|s| - 1 - n])
    ensures TrailingSpace(s) == n
  {
  }

  lemma TrailingSlashIs(s: string, n: nat)
    requires n <= |s| && (forall i :: |s| - n <= i < |s| ==> s[i] == '/')
    requires n < |s| ==> s[|s| - 1 - n] != '/'
    ensures TrailingSlash(s) == n
  {
  }

  /** `strip` removes exactly the whitespace around a string that begins and ends with
      other characters, however much of it there is. */
  lemma StripPadded(w1: string, u: string, w2: string)
    requires AllSpace(w1) && AllSpace(w2)
    requires u != [] && !IsSpace(u[0]) && !IsSpace(u[|u| - 1])
    ensures Strip(w1 + u + w2) == u
  {
    var x := w1 + u + w2;
    assert forall i :: 0 <= i < |w1| ==> x[i] == w1[i];
    assert x[|w1|] == u[0];
    LeadingSpaceIs(x, |w1|);
    var t := x[|w1|..];
    assert t == u + w2;
    assert forall i :: |t| - |w2| <= i < |t| ==> t[i] == w2[i - |u|];
    assert t[|t| - 1 - |w2|] == u[|u| - 1];
    TrailingSpaceIs(t, |w2|);
    assert t[..|t| - |w2|] == u;
  }

  /** A string without whitespace is its own `strip`. */
  lemma StripNoSpace(s: string)
    requires !HasSpace(s)
    ensures Strip(s) == s
  {
    if s != [] {
      assert !IsSpace(s[0]) && !IsSpace(s[|s| - 1]);
      StripPadded([], s, []);
      assert [] + s + [] == s;
    }
  }

  /** Trailing slashes of any count make no difference once they are trimmed. */
  lemma TrimSlashesAppend(u: string, sl: string)
    requires AllSlash(sl)
    ensures TrimSlashes(u + sl) == TrimSlashes(u)
  {
    var x := u + sl;
    var k := TrailingSlash(u);
    var n := k + |sl|;
    assert forall i :: |x| - n <= i < |x| ==> x[i] == '/' by {
      forall i | |x| - n <= i < |x|
        ensures x[i] == '/'
      {
        if i < |u| {
          assert x[i] == u[i];
        } else {
          assert x[i] == sl[i - |u|];
        }
      }
    }
    if n < |x| {
      assert x[|x| - 1 - n] == u[|u| - 1 - k];
    }
    TrailingSlashIs(x, n);
    assert x[..|x| - n] == u[..|u| - k];
  }
}

=== FILE: url.dfy ===
/**
 `normalize_url` (lib/cli/common.rb): the canonical form of a user-entered server address.
 A URL is read as `scheme "://" host rest`, the host running up to the first `/`, `:`, `?`
 or `#`; this is the part of `URI.parse` the normalisation depends on.
 */
module Url {
  import opened Wrappers
  import opened Text

  /** The two schemes the address test recognises and the command line supplies as defaults. */
  datatype Scheme = Http | Https

  function SchemeName(sc: Scheme): string {
    match sc
    case Http => "http"
    case Https => "https"
  }

  function Prefix(sc: Scheme): string {
    SchemeName(sc) + "://"
  }

  /** The case-sensitive test `url =~ /^https?:\/\//`. */
  function SchemeOf(t: string): (r: Option<Scheme>)
    ensures r.Some? ==> Prefix(r.value) <= t
    ensures r.None? <==> !(Prefix(Http) <= t) && !(Prefix(Https) <= t)
  {
    if Prefix(Http) <= t then Some(Http)
    else if Prefix(Https) <= t then Some(Https)
    else None
  }

  predicate IsHostEnd(c: char) {
    c == '/' || c == ':' || c == '?' || c == '#'
  }

  predicate NoHostEnd(s: string) {
    forall i :: 0 <= i < |s| ==> !IsHostEnd(s[i])
  }

  /** Length of the host at the start of `s`. */
  function HostLength(s: string): (n: nat)
    ensures n <= |s| && NoHostEnd(s[..n])
    ensures n < |s| ==> IsHostEnd(s[n])
  {
    if |s| == 0 || IsHostEnd(s[0]) then 0 else 1 + HostLength(s[1..])
  }

  /** A URL split into the parts the normalisation distinguishes. */
  datatype Uri = Uri(scheme: Scheme, host: string, rest: string)

  function ShowUri(u: Uri): string {
    Prefix(u.scheme) + u.host + u.rest
  }

  /** Splits what follows `scheme://` into host and rest. */
  function Parse(sc: Scheme, s: string): (u: Uri)
    ensures ShowUri(u) == Prefix(sc) + s
    ensures NoHostEnd(u.host) && (u.rest == [] || IsHostEnd(u.rest[0]))
  {
    var n := HostLength(s);
    assert s == s[..n] + s[n..];
    Uri(sc, s[..n], s[n..])
  }

  /** `url.host.downcase!; url.to_s`: the URL with only its host lower-cased. */
  function Canonical(sc: Scheme, s: string): (r: string)
    ensures Lower(r) == Lower(Prefix(sc) + s)
    ensures |r| == |Prefix(sc) + s|
  {
    var u := Parse(sc, s);
    LowerAppend(Prefix(sc) + u.host, u.rest);
    LowerAppend(Prefix(sc), u.host);
    LowerAppend(Prefix(sc) + Lower(u.host), u.rest);
    LowerAppend(Prefix(sc), Lower(u.host));
    LowerIdempotent(u.host);
    ShowUri(u.(host := Lower(u.host)))
  }

  /** Outcome of `normalize_url`: a canonical URL, `nil` for a scheme-less address with
      no default, or the `ArgumentError` raised for embedded whitespace. */
  datatype Normal = Ok(url: string) | NoScheme | Whitespace

  /** The address after `strip` and removal of trailing slashes. */
  function Cleaned(raw: string): (r: string)
    ensures r <= Strip(raw) && (r == [] || r[|r| - 1] != '/')
  {
    TrimSlashes(Strip(raw))
  }

  /** `normalize_url(url, scheme)`. */
  function Normalize(raw: string, default: Option<Scheme>): (r: Normal)
    ensures r.Whitespace? <==> HasSpace(Cleaned(raw))
    ensures r.NoScheme? <==> !HasSpace(Cleaned(raw)) && SchemeOf(Cleaned(raw)).None? && default.None?
    ensures r.Ok? ==> SchemeOf(r.url).Some? && !HasSpace(r.url)
    ensures r.Ok? && SchemeOf(Cleaned(raw)).Some? ==> Lower(r.url) == Lower(Cleaned(raw))
    ensures r.Ok? && SchemeOf(Cleaned(raw)).None? ==>
              default.Some? && Lower(r.url) == Lower(Prefix(default.value) + Cleaned(raw))
  {
    Qualify(Cleaned(raw), default)
  }

  /** The part of `normalize_url` after trimming: the whitespace check, the scheme test,
      the default scheme and the lower-casing of the host. */
  function Qualify(t: string, default: Option<Scheme>): (r: Normal)
    ensures r.Whitespace? <==> HasSpace(t)
    ensures r.NoScheme? <==> !HasSpace(t) && SchemeOf(t).None? && default.None?
    ensures r.Ok? ==> SchemeOf(r.url).Some? && !HasSpace(r.url)
    ensures r.Ok? && SchemeOf(t).Some? ==> Lower(r.url) == Lower(t)
    ensures r.Ok? && SchemeOf(t).None? ==>
              default.Some? && Lower(r.url) == Lower(Prefix(default.value) + t)
  {
    if HasSpace(t) then Whitespace
    else match SchemeOf(t)
      case Some(sc) =>
        var r := Canonical(sc, t[|Prefix(sc)|..]);
        assert Prefix(sc) + t[|Prefix(sc)|..] == t;
        CanonicalShape(sc, t[|Prefix(sc)|..]);
        Ok(r)
      case None =>
        if default.None? then NoScheme
        else
          CanonicalShape(default.value, t);
          Ok(Canonical(default.value, t))
  }

  /** `Qualify` on an input without a scheme. */
  lemma QualifyDefault(t: string, sc: Scheme)
    requires !HasSpace(t) && SchemeOf(t).None?
    ensures Qualify(t, Some(sc)) == Ok(Canonical(sc, t))
    ensures Qualify(t, None) == NoScheme
  {
  }

  /** `Qualify` on an input that carries `scheme://`. */
  lemma QualifyPrefixed(sc: Scheme, s: string, d: Option<Scheme>)
    requires !HasSpace(Prefix(sc) + s)
    ensures Qualify(Prefix(sc) + s, d) == Ok(Canonical(sc, s))
  {
    SchemeOfPrefixed(sc, s);
    assert (Prefix(sc) + s)[|Prefix(sc)|..] == s;
  }

  /** The canonical form splits at the host boundary the way its input does. */
  lemma CanonicalParts(sc: Scheme, s: string) returns (h: string, rest: string)
    ensures s == h + rest && NoHostEnd(h) && (rest == [] || IsHostEnd(rest[0]))
    ensures Canonical(sc, s) == Prefix(sc) + (Lower(h) + rest)
  {
    var p := Parse(sc, s);
    h, rest := p.host, p.rest;
    assert s == h + rest;
  }

  /** The canonical form keeps the scheme, and gains whitespace only where its input had it. */
  lemma CanonicalShape(sc: Scheme, s: string)
    requires !HasSpace(s)
    ensures Prefix(sc) <= Canonical(sc, s)
    ensures SchemeOf(Canonical(sc, s)) == Some(sc)
    ensures !HasSpace(Canonical(sc, s))
  {
    var h, rest := CanonicalParts(sc, s);
    var tail := Lower(h) + rest;
    SpaceAppend(h, rest);
    LowerKeepsShape(h);
    SpaceAppend(Lower(h), rest);
    SchemeOfPrefixed(sc, tail);
    SpaceAppend(Prefix(sc), tail);
  }

  lemma SchemeOfPrefixed(sc: Scheme, s: string)
    ensures SchemeOf(Prefix(sc) + s) == Some(sc)
    ensures !HasSpace(Prefix(sc))
  {
    var x := Prefix(sc) + s;
    assert x[..|Prefix(sc)|] == Prefix(sc);
    if sc == Https {
      assert x[4] == 's' && Prefix(Http)[4] == ':';
    }
  }

  /** Lower-casing keeps the host boundary where it was. */
  lemma LowerNoHostEnd(h: string)
    requires NoHostEnd(h)
    ensures NoHostEnd(Lower(h))
  {
  }

  lemma {:induction false} HostLengthOf(h: string, rest: string)
    requires NoHostEnd(h)
    requires rest == [] || IsHostEnd(rest[0])
    ensures HostLength(h + rest) == |h|
    decreases |h|
  {
    if h == [] {
      assert h + rest == rest;
    } else {
      assert (h + rest)[1..] == h[1..] + rest;
      HostLengthOf(h[1..], rest);
    }
  }

  /** An address without whitespace and without a trailing slash is already trimmed. */
  lemma CleanedFixed(x: string)
    requires !HasSpace(x) && (x != [] ==> x[|x| - 1] != '/')
    ensures Cleaned(x) == x
  {
    StripNoSpace(x);
  }

  /** An address that starts and ends with a character other than whitespace, and does
      not end in a slash, is already trimmed, whatever it holds inside. */
  lemma CleanedFixedEnds(x: string)
    requires x != [] && !IsSpace(x[0]) && !IsSpace(x[|x| - 1]) && x[|x| - 1] != '/'
    ensures Cleaned(x) == x
  {
    assert Strip(x) == x by {
      StripPadded([], x, []);
      assert [] + x + [] == x;
    }
    assert TrimSlashes(x) == x by {
      TrailingSlashIs(x, 0);
    }
  }

  /** On such an address `normalize_url` goes straight to the scheme test. */
  lemma NormalizeTrimmed(x: string, d: Option<Scheme>)
    requires !HasSpace(x) && (x != [] ==> x[|x| - 1] != '/')
    ensures Normalize(x, d) == Qualify(x, d)
  {
    CleanedFixed(x);
  }

  /** An address already stripped of outer whitespace and trailing slashes, with an
      explicit scheme, normalises to itself with its host lower-cased and every other
      character kept. */
  lemma NormalizeParsed(sc: Scheme, h: string, rest: string, d: Option<Scheme>)
    requires NoHostEnd(h) && (rest == [] || IsHostEnd(rest[0]))
    requires !HasSpace(h) && !HasSpace(rest)
    requires h + rest != [] && (rest != [] ==> rest[|rest| - 1] != '/')
    ensures Normalize(Prefix(sc) + h + rest, d) == Ok(Prefix(sc) + Lower(h) + rest)
  {
    var s := h + rest;
    var x := Prefix(sc) + s;
    assert Prefix(sc) + h + rest == x;
    SchemeOfPrefixed(sc, s);
    SpaceAppend(h, rest);
    SpaceAppend(Prefix(sc), s);
    assert x[|x| - 1] == s[|s| - 1];
    assert s[|s| - 1] != '/' by {
      if rest == [] {
        assert s[|s| - 1] == h[|h| - 1];
      }
    }
    NormalizeTrimmed(x, d);
    QualifyPrefixed(sc, s, d);
    CanonicalOfParsed(sc, h, rest);
  }

  /** The canonical form of an address split at its host boundary. */
  lemma CanonicalOfParsed(sc: Scheme, h: string, rest: string)
    requires NoHostEnd(h) && (rest == [] || IsHostEnd(rest[0]))
    ensures Canonical(sc, h + rest) == Prefix(sc) + Lower(h) + rest
  {
    var s := h + rest;
    HostLengthOf(h, rest);
    assert s[..|h|] == h && s[|h|..] == rest;
    assert Parse(sc, s) == Uri(sc, h, rest);
  }

  /** Mixed-case spellings of a host give the same target. */
  lemma HostCaseIrrelevant(sc: Scheme, h1: string, h2: string, rest: string, d: Option<Scheme>)
    requires Lower(h1) == Lower(h2)
    requires NoHostEnd(h1) && NoHostEnd(h2) && (rest == [] || IsHostEnd(rest[0]))
    requires !HasSpace(h1) && !HasSpace(h2) && !HasSpace(rest)
    requires h1 + rest != [] && (rest != [] ==> rest[|rest| - 1] != '/')
    ensures Normalize(Prefix(sc) + h1 + rest, d) == Normalize(Prefix(sc) + h2 + rest, d)
  {
    NormalizeParsed(sc, h1, rest, d);
    assert |h2| == |h1|;
    NormalizeParsed(sc, h2, rest, d);
  }

  /** Outer whitespace and trailing slashes of any count do not change the result. */
  lemma NormalizeIgnoresPadding(w1: string, u: string, slashes: string, w2: string, d: Option<Scheme>)
    requires AllSpace(w1) && AllSpace(w2) && AllSlash(slashes)
    requires u != [] && !IsSpace(u[0]) && !IsSpace(u[|u| - 1])
    ensures Normalize(w1 + u + slashes + w2, d) == Normalize(u, d)
  {
    PaddingCleaned(w1, u, slashes, w2);
  }

  lemma PaddingCleaned(w1: string, u: string, slashes: string, w2: string)
    requires AllSpace(w1) && AllSpace(w2) && AllSlash(slashes)
    requires u != [] && !IsSpace(u[0]) && !IsSpace(u[|u| - 1])
    ensures Cleaned(w1 + u + slashes + w2) == Cleaned(u)
  {
    var x := w1 + u + slashes + w2;
    var v := u + slashes;
    assert !IsSpace(v[0]) && !IsSpace(v[|v| - 1]) by {
      assert v[0] == u[0];
      if slashes == [] {
        assert v == u;
      } else {
        assert v[|v| - 1] == slashes[|slashes| - 1];
      }
    }
    assert Cleaned(x) == TrimSlashes(v) by {
      assert x == w1 + v + w2;
      StripPadded(w1, v, w2);
    }
    assert Cleaned(u) == TrimSlashes(u) by {
      StripPadded([], u, []);
      assert [] + u + [] == u;
    }
    assert TrimSlashes(v) == TrimSlashes(u) by {
      TrimSlashesAppend(u, slashes);
    }
  }

  /** With an explicit `http://` or `https://` the default scheme is ignored. */
  lemma DefaultIgnored(raw: string, d: Option<Scheme>)
    requires SchemeOf(Cleaned(raw)).Some?
    ensures Normalize(raw, d) == Normalize(raw, None)
  {
  }

  /** Without a scheme, a default scheme acts as if `scheme://` had been typed in front. */
  lemma DefaultPrepends(raw: string, sc: Scheme)
    requires Normalize(raw, None) == NoScheme && Cleaned(raw) != []
    ensures Normalize(raw, Some(sc)) == Normalize(Prefix(sc) + Cleaned(raw), None)
  {
    var t := Cleaned(raw);
    var x := Prefix(sc) + t;
    SchemeOfPrefixed(sc, t);
    SpaceAppend(Prefix(sc), t);
    assert x[|x| - 1] == t[|t| - 1];
    NormalizeTrimmed(x, None);
    QualifyPrefixed(sc, t, None);
  }

  /** A canonical URL built from a non-empty remainder without a trailing slash is
      trimmed already. */
  lemma CanonicalTrimmed(sc: Scheme, s: string)
    requires !HasSpace(s) && s != [] && s[|s| - 1] != '/'
    ensures !HasSpace(Canonical(sc, s)) && Canonical(sc, s)[|Canonical(sc, s)| - 1] != '/'
    ensures Prefix(sc) <= Canonical(sc, s)
  {
    var h, rest := CanonicalParts(sc, s);
    var s2 := Lower(h) + rest;
    CanonicalShape(sc, s);
    LastOfLowered(h, rest);
    assert (Prefix(sc) + s2)[|Prefix(sc) + s2| - 1] == s2[|s2| - 1];
  }

  /** A canonical URL is its own canonical form. */
  lemma CanonicalFixed(sc: Scheme, s: string)
    ensures Prefix(sc) <= Canonical(sc, s)
    ensures Canonical(sc, Canonical(sc, s)[|Prefix(sc)|..]) == Canonical(sc, s)
  {
    var h, rest := CanonicalParts(sc, s);
    var s2 := Lower(h) + rest;
    assert Canonical(sc, s)[|Prefix(sc)|..] == s2 by {
      assert (Prefix(sc) + s2)[|Prefix(sc)|..] == s2;
    }
    assert Canonical(sc, s2) == Prefix(sc) + s2 by {
      LowerNoHostEnd(h);
      CanonicalOfParsed(sc, Lower(h), rest);
      LowerIdempotent(h);
    }
  }

  /** Lower-casing the host keeps the last character of a host-and-rest other than `/`. */
  lemma LastOfLowered(h: string, rest: string)
    requires h + rest != [] && (h + rest)[|h + rest| - 1] != '/'
    ensures var s2 := Lower(h) + rest; s2 != [] && s2[|s2| - 1] != '/'
  {
    if rest == [] {
      assert (h + rest)[|h + rest| - 1] == h[|h| - 1];
      LowerKeepsShape(h);
    } else {
      assert (h + rest)[|h + rest| - 1] == rest[|rest| - 1];
    }
  }

  /** What follows an explicit scheme in a trimmed address is non-empty and keeps the
      address's properties. */
  lemma AfterScheme(t: string, sc: Scheme)
    requires SchemeOf(t) == Some(sc)
    requires !HasSpace(t) && t != [] && t[|t| - 1] != '/'
    ensures Prefix(sc) + t[|Prefix(sc)|..] == t
    ensures var s := t[|Prefix(sc)|..]; !HasSpace(s) && s != [] && s[|s| - 1] != '/'
  {
    var s := t[|Prefix(sc)|..];
    assert Prefix(sc) + s == t;
    SpaceAppend(Prefix(sc), s);
    assert |Prefix(sc)| < |t|;
    assert t[|t| - 1] == s[|s| - 1];
  }

  /** A successful qualification of a trimmed address is the canonical form of a
      trimmed remainder under some scheme. */
  lemma QualifySplit(t: string, d: Option<Scheme>) returns (sc: Scheme, s: string)
    requires Qualify(t, d).Ok?
    requires !HasSpace(t) && t != [] && t[|t| - 1] != '/'
    ensures Qualify(t, d) == Ok(Canonical(sc, s))
    ensures !HasSpace(s) && s != [] && s[|s| - 1] != '/'
  {
    if SchemeOf(t).Some? {
      sc := SchemeOf(t).value;
      AfterScheme(t, sc);
      s := t[|Prefix(sc)|..];
      QualifyPrefixed(sc, s, d);
    } else {
      sc, s := d.value, t;
      QualifyDefault(t, sc);
    }
  }

  /** The scheme-qualifying step maps a trimmed address to a fixed point of itself. */
  lemma QualifyIdempotent(t: string, d: Option<Scheme>, d2: Option<Scheme>)
    requires Qualify(t, d).Ok?
    requires !HasSpace(t) && t != [] && t[|t| - 1] != '/'
    ensures var u := Qualify(t, d).url;
      !HasSpace(u) && u[|u| - 1] != '/' && Qualify(u, d2) == Ok(u)
  {
    var sc, s := QualifySplit(t, d);
    CanonicalQualified(sc, s, d2);
  }

  /** A canonical URL of a trimmed remainder is trimmed and qualifies to itself. */
  lemma CanonicalQualified(sc: Scheme, s: string, d: Option<Scheme>)
    requires !HasSpace(s) && s != [] && s[|s| - 1] != '/'
    ensures var u := Canonical(sc, s);
      !HasSpace(u) && u[|u| - 1] != '/' && Qualify(u, d) == Ok(u)
  {
    var u := Canonical(sc, s);
    CanonicalTrimmed(sc, s);
    var s2 := u[|Prefix(sc)|..];
    assert Prefix(sc) + s2 == u;
    assert Canonical(sc, s2) == u by {
      CanonicalFixed(sc, s);
    }
    QualifyPrefixed(sc, s2, d);
  }

  /** Normalisation is idempotent: a canonical URL normalises to itself, whatever the
      default scheme. The input must not be blank: a blank address with a default scheme
      gives the bare `scheme://`, which trims to `scheme:` and no longer has a scheme. */
  lemma NormalizeIdempotent(raw: string, d: Option<Scheme>, d2: Option<Scheme>)
    requires Normalize(raw, d).Ok? && Cleaned(raw) != []
    ensures Normalize(Normalize(raw, d).url, d2) == Normalize(raw, d)
  {
    var t := Cleaned(raw);
    var u := Normalize(raw, d).url;
    assert Normalize(raw, d) == Ok(u);
    assert Qualify(t, d) == Ok(u) && !HasSpace(t) && t[|t| - 1] != '/';
    assert !HasSpace(u) && u[|u| - 1] != '/' && Qualify(u, d2) == Ok(u) by {
      QualifyIdempotent(t, d, d2);
    }
    assert Normalize(u, d2) == Ok(u) by {
      NormalizeTrimmed(u, d2);
    }
  }

  /** The blank address is the exception to idempotence. */
  lemma BlankWithDefault(raw: string, sc: Scheme)
    requires AllSpace(raw)
    ensures Normalize(raw, Some(sc)) == Ok(Prefix(sc))
    ensures Normalize(Prefix(sc), None) == NoScheme
  {
    BlankQualified(raw, sc);
    BareSchemeTrimmed(sc);
  }

  lemma BlankQualified(raw: string, sc: Scheme)
    requires AllSpace(raw)
    ensures Normalize(raw, Some(sc)) == Ok(Prefix(sc))
  {
    assert Cleaned(raw) == "";
    var h, rest := CanonicalParts(sc, "");
    assert h == [] && rest == [];
    QualifyDefault("", sc);
  }

  /** `scheme://` loses its slashes to the trimming and with them its scheme. */
  lemma BareSchemeTrimmed(sc: Scheme)
    ensures Normalize(Prefix(sc), None) == NoScheme
  {
    var p := Prefix(sc);
    var n := SchemeName(sc) + ":";
    assert p == n + "//";
    assert p[..|p| - 1] == n + "/";
    assert (n + "/")[..|n|] == n;
    assert n[|n| - 1] == ':';
    assert TrimSlashes(p) == n;
    SchemeOfPrefixed(sc, "");
    StripNoSpace(p);
    assert Cleaned(p) == n;
    assert !HasSpace(n) by {
      SpaceAppend(n, "//");
    }
  }
}

=== FILE: wrappers.dfy ===
/** Failure-carrying values used where the Ruby code returns nil or raises. */
module Wrappers {

  /** Ruby's "a value or nil". */
  datatype Option<+T> = None | Some(value: T)

  /** A value, or the error the Ruby code would raise or report instead. */
  datatype Result<+T, +E> = Success(value: T) | Failure(error: E)
}
